=== FILE: README.md ===
# One Piece chapter downloader: a Dafny model

This project models the decision logic of a small scraper. The scraper turns a
chapter number into a PDF of that chapter's page images. There are two
implementations:

- `MangaDownloader` in `classes/manga_downloader.py`, which `download.py` and
  the chat bot call.
- The older stand-alone script `program.py`.

The network, HTML parsing, image decoding, PDF writing and the filesystem are
abstract inputs and outputs:

- A chapter page is the list of its `<img src>` values in document order, or a
  failed request.
- A run of image downloads is a list of HTTP status codes, one per request.
  For the class, the i-th status answers the i-th candidate, and the list
  holds at least one status per `src` on the page. Extra statuses are never
  read.
- The watermark file `last_chapter.txt` is an optional integer cell. A
  separate round-trip lemma shows the cell is an exact view of the text that is
  written and read back.

Modules follow the program's structure:

- `Decimal`: Python `str()` of an `int` and `int()` of a `str`.
- `Addressing`: the chapter page URL, the legacy CDN chapter id and page URL,
  and the names of saved images and PDFs. Each builder has a decoder or an
  injectivity lemma.
- `LinkFilter`: `find_cdn_images`. It removes `\r` from each src, keeps a src
  only if `re.match(r'https://cdn.*\.(png|jpeg)')` accepts it, and then runs
  `re.sub(r'\?.*', '', …)` on it.
- `Fetch`: both `download_images` loops. Each stops at the first 404.
- `Watermark`: reading and writing the watermark, the class's conditional
  update, and the choice of the next chapter.
- `Downloader`: `download_chapter` as written and as evidently intended, plus
  `get_url` and the zero-argument `delete_images` that the class keeps.
- `Legacy`: `main` of `program.py`.

Behaviour of the code that the model reproduces exactly:

- The class's watermark update raises when no watermark file exists, instead
  of storing the first chapter.
- `program.py` overwrites the watermark unconditionally, so it can go down.
- In Python's `re` the `.` does not match a newline, so
  `re.sub(r'\?.*', '', s)` removes each `?` with the rest of its line only,
  and the newline is kept. A src may contain a newline after its extension:
  only `\r` is removed, and the pattern only has to match a prefix.
  `LinkFilter.StripQuery` models this line by line. The simpler form, where
  the result is the text before the first `?`, is proved only for strings
  without a newline (`LinkFilter.StripQuerySingleLine`).

## Model

The functions that model the source operations have no `ensures` of their own:
`Downloader.DownloadChapter`, `Downloader.DownloadChapterCorrected`,
`Downloader.GetUrl`, `Watermark.GetLastChapter`, `Fetch.DownloadImages`,
`Fetch.LegacyDownload` and `Legacy.LegacyMain`. The lemma rows that cite the
same source lines specify them. For example, `download_chapter` is described
by the `Downloader.DownloadChapter…` and `Downloader.DefaultCall…` rows.

| member | source | states |
|---|---|---|
| Addressing.ChapterPageUrl | classes/manga_downloader.py:26 | the chapter page URL starts with `https://ww10.readonepiece.com/chapter/one-piece-chapter-` and ends in `/` |
| Addressing.PageUrlRoundTrip | classes/manga_downloader.py:72 | the chapter number can be read back out of the page URL that `download_images` checks, so that URL identifies exactly one chapter |
| Addressing.PageUrlInjective | classes/manga_downloader.py:26 | different chapters are never looked up at the same page |
| Addressing.ChapterId | program.py:68 | the legacy chapter id begins with `1` and ends with `000`, and contains no `_` or `/` |
| Addressing.ChapterIdRoundTrip | program.py:68 | the chapter number is recovered from the middle of `"1" + str(chapter) + "000"` |
| Addressing.LegacyPageUrl | program.py:32 | a legacy page URL lies under `BASE_URL/<id>/` and ends in `.jpeg` |
| Addressing.LegacyPageUrlInjective | program.py:29-32 | different page numbers of one chapter request different URLs |
| Addressing.AssetName | classes/manga_downloader.py:89 | a saved image's name always ends in `.jpeg`, whatever the suffix of the URL it came from |
| Addressing.AssetNameRoundTrip | classes/manga_downloader.py:89 | the stem and page number are recovered from `<stem>_<page>.jpeg` when the stem has no underscore |
| Addressing.ClassAssetPathInjective | classes/manga_downloader.py:89 | `OUTPUT_DIR/{chapter}_{i+1}.jpeg` differs for different positions and different chapters, so files within a run, or across chapters, never overwrite each other |
| Addressing.LegacyAssetPathInjective | program.py:37 | the script's files, named by chapter id and page, never collide across pages or chapters |
| Addressing.PdfName | classes/manga_downloader.py:124 | the PDF name ends in `.pdf` and never in `.jpeg` |
| Addressing.PdfPathInjective | classes/manga_downloader.py:124 | different chapters get different PDFs; re-running a chapter overwrites its own PDF |
| LinkFilter.RemoveCRFacts | classes/manga_downloader.py:57 | the cleaned src has no carriage return and every other character occurs exactly as often as before; a src without `\r` is unchanged |
| LinkFilter.RemoveCRConcat | classes/manga_downloader.py:57 | the removal keeps the order of the remaining characters: it distributes over concatenation, and a single character is kept unless it is `\r`, which determines the result on every string |
| LinkFilter.MatchesCdnPattern | classes/manga_downloader.py:54-58 | a scan from the end of `https://cdn`, stopping at the first newline, accepts exactly the strings that start with `https://cdn` and have a later `.png` or `.jpeg` with no newline in between |
| LinkFilter.StripQueryFacts | classes/manga_downloader.py:62 | the result has no `?`; the part before the first `?` survives as a prefix; a URL without `?` is unchanged |
| LinkFilter.StripQueryDeletesOnly | classes/manga_downloader.py:62 | the result's multiset of characters is contained in the input's: the strip adds no character |
| LinkFilter.StripQueryLines | classes/manga_downloader.py:62 | the strip works line by line: stripping `a + "\n" + b` gives the stripped `a`, the kept newline and the stripped `b`, so a `?` removes only the rest of its own line. With `StripQuerySingleLine` this determines the result on every string |
| LinkFilter.StripQuerySingleLine | classes/manga_downloader.py:62 | on a string without a newline the result is exactly the text before the first `?` |
| LinkFilter.StripQueryIdempotent | classes/manga_downloader.py:62 | stripping a stripped URL changes nothing |
| LinkFilter.CandidatesExact | classes/manga_downloader.py:53-59 | the filter keeps exactly the srcs whose cleaned form matches, each occurrence separately (no de-duplication), in page order: the k-th link is the cleaned src at the k-th kept position, and the positions strictly increase |
| LinkFilter.CdnImagesShape | classes/manga_downloader.py:53-69 | every returned link starts with `https://cdn` and has no `?` and no `\r`; there are never more links than srcs |
| LinkFilter.CdnImages | classes/manga_downloader.py:43-69 | a failed page request (network error or HTTP error status) yields no links; otherwise there are never more links than srcs |
| LinkFilter.FilterCandidates | classes/manga_downloader.py:56-59 | the filtering loop, which runs the pattern scan on each cleaned src, produces exactly the kept candidates in page order |
| LinkFilter.StripAll | classes/manga_downloader.py:62 | the second pass replaces every kept link by its stripped form, position by position |
| LinkFilter.FindCdnImages | classes/manga_downloader.py:43-69 | the two passes together return exactly the filtered and stripped links of the page, and nothing for a failed request |
| Fetch.FirstNotFound | classes/manga_downloader.py:86-88 | the stopping index: every status before it is not 404, and the status at it is 404 unless it is the end |
| Fetch.DownloadImagesShape | classes/manga_downloader.py:71-94 | the reference outcome saves image `i + 1` for each candidate before the first 404 and requests the chapter page first |
| Fetch.DownloadImagesLoop | classes/manga_downloader.py:71-94 | the loop saves `OUTPUT_DIR/{chapter}_{i+1}.jpeg` for exactly the candidates before the first 404, in order. It requests the chapter page and then a prefix of the candidates that ends at the 404, so nothing after the first 404 is fetched. It agrees with the reference outcome |
| Fetch.LegacyDownloadShape | program.py:28-42 | pages 1 to k are saved under the chapter id and pages 1 to k + 1 are requested, where k + 1 is the first page answering 404 |
| Fetch.LegacyDownloadLoop | program.py:28-42 | the unbounded page loop ends when some page answers 404. It requests pages 1, 2, … up to that page and saves `OUTPUT_DIR/{id}_{page}.jpeg` for every earlier page, with `page` going up by one per saved image |
| Watermark.WatermarkFileRoundTrip | classes/manga_downloader.py:28-39 | reading the file with `int(f.read().strip())` after writing `str(chapter)` yields that chapter |
| Watermark.SaveLastChapter | classes/manga_downloader.py:34-41 | the update raises exactly when no watermark exists. Otherwise the stored value becomes the larger of the stored value and the chapter |
| Watermark.AdvanceWatermark | classes/manga_downloader.py:34-41 | corrected update: the result is never empty, is at least the chapter and at least the prior value, and is one of the two |
| Watermark.AdvanceAllIsMax | classes/manga_downloader.py:34-41 | after any sequence of corrected updates, in any order, the watermark is the maximum of the prior value and all the chapters |
| Watermark.SaveAllMatchesAdvance | classes/manga_downloader.py:34-41 | once a watermark exists, a sequence of the class's updates gives the same result as the corrected ones, so it never decreases |
| Watermark.SaveAllFromEmptyRaises | classes/manga_downloader.py:28-36 | without a watermark file every sequence of the class's updates raises on its first update |
| Watermark.LateDuplicateKeepsWatermark | classes/manga_downloader.py:34-41 | from 1129, updating to 1130 and then to 1129 again leaves 1130 |
| Watermark.NextChapter | classes/manga_downloader.py:116-118 | the chosen chapter is above any stored value. It is 1 exactly when nothing or 0 is stored (0 is falsy), and otherwise it is the stored value plus one |
| Downloader.DownloadChapterDocument | classes/manga_downloader.py:115-125 | a PDF is written exactly when at least one image was saved. It goes to `manga_chapters/one piece - {c}.pdf` and holds the saved images in order, before the first 404. The first request is the chosen chapter's page |
| Downloader.DownloadChapterOutcomes | classes/manga_downloader.py:115-134 | With no images the call returns `None` and the watermark is unchanged. With images and `delete_images` set it raises, watermark unchanged. With images, no flag and no watermark it raises on the comparison. Otherwise it returns the PDF path and the watermark becomes the larger value |
| Downloader.DefaultCallNeverAdvances | classes/manga_downloader.py:127-129 | with the default `delete_images=True` the call never moves the watermark and never returns a PDF path |
| Downloader.DefaultCallRaisesExample | classes/manga_downloader.py:127-136 | chapter 1130, one image answered 200, stored 1129: the default call raises the arity `TypeError` and the watermark stays 1129 |
| Downloader.AsWrittenNeverCreatesWatermark | classes/manga_downloader.py:28-41 | starting with no watermark file, no call of `download_chapter`, with any arguments, ever creates one |
| Downloader.CorrectedRunAdvances | classes/manga_downloader.py:111-131 | corrected run: it works on the chosen chapter, requests exactly what the as-written call requests, and writes the same PDF. A PDF is written exactly when an image before the first 404 was saved. Images found means the PDF path is returned and the watermark becomes the larger of the stored value and the chapter, or the chapter when none is stored. Asking for deletion leaves no image on disk. No images means nothing changes |
| Downloader.CorrectedRunMonotone | classes/manga_downloader.py:34-41 | a corrected run never lowers an existing watermark |
| Downloader.CorrectedLatestRunStepsByOne | classes/manga_downloader.py:116-129 | a corrected "latest" run that finds images moves the watermark up by exactly one |
| Downloader.CorrectedCallExample | classes/manga_downloader.py:111-131 | chapter 1130, one image answered 200, stored 1129, default arguments: the corrected call returns the PDF path of chapter 1130 and the watermark becomes 1130 |
| Downloader.GetUrlAddressesStoredChapter | classes/manga_downloader.py:19-26 | with no chapter given, `get_url` addresses the stored chapter itself, not the one `download_chapter` would choose; with no file it raises |
| Downloader.SweepRemovesImagesKeepsPdfs | classes/manga_downloader.py:136-144 | the surviving `delete_images` removes every saved page image of any chapter and keeps every chapter PDF; a second sweep removes nothing more |
| Legacy.LegacyChapterChoice | program.py:62-66 | a decimal argument selects that chapter; without one the chapter after the watermark is used |
| Legacy.LegacyRunEffects | program.py:61-79 | The run uses the chapter that `LegacyChapterChoice` describes. Bad argument: the run raises before any request. Otherwise it requests the legacy pages and writes a PDF, named by chapter number, exactly when page 1 was not a 404. The page files are deleted. The watermark is set to the chapter whenever a page was found, and is otherwise kept |
| Legacy.LegacyWatermarkCanDecrease | program.py:24-26 | the script's watermark is not monotone: running chapter 3 over a stored 10 stores 3 |

## Findings

| source | as written | input that shows it | evidently intended | confidence | as-written member | corrected member |
|---|---|---|---|---|---|---|
| classes/manga_downloader.py:128 | `self.delete_images(images)` resolves to the zero-argument `delete_images` defined later at line 136. It raises `TypeError` before `save_last_chapter` runs | chapter 1130; the page has one CDN image, answered 200; stored watermark 1129; default `delete_images=True`, as the chat bot calls it | delete the listed images with the one-argument version of line 111, then advance the watermark | high; not executed | Downloader.DefaultCallRaisesExample | Downloader.CorrectedRunAdvances |
| classes/manga_downloader.py:36 | `chapter > last_chapter` is evaluated with `last_chapter = None` when no watermark file exists, which raises `TypeError` | no `last_chapter.txt`; any chapter with images; `delete_images=False` | store the chapter when no watermark exists, then keep the maximum | high; not executed | Watermark.SaveAllFromEmptyRaises | Watermark.AdvanceAllIsMax |

Both defects together mean the class never creates or advances the watermark
on its default path (`Downloader.AsWrittenNeverCreatesWatermark`,
`Downloader.DefaultCallNeverAdvances`). `Downloader.DownloadChapterCorrected`
is built on `Watermark.AdvanceWatermark`. On the first row's input, the corrected call
returns the PDF path and moves the watermark to 1130 (`Downloader.CorrectedCallExample`).

## Left out

- HTTP and HTML parsing: `requests.get` and BeautifulSoup are not modelled. A chapter page is its `<img src>` values or a failed request; `raise_for_status` errors and `RequestException` both become the failed case, as the source maps both to `[]`.
- Image requests that raise: `requests.get(image_url)` at classes/manga_downloader.py:86 and program.py:34 can raise a network exception, which is not caught. Only status codes are modelled. Any non-404 status, error pages included, is saved as an image, as in the source.
- Response bodies, file writes, `os.makedirs` and `os.remove`: only the paths written and left on disk are modelled.
- `images_to_pdf`: decoding, grey-scale conversion and the 100 dpi resolution are not modelled. The model keeps only the output path and the ordered page list, and requires at least one image because the source indexes `[0]`. A decode failure is not modelled.
- A corrupt watermark file: `Watermark.GetLastChapter` and `Downloader.GetUrl` raise `ValueError` for it. The orchestrators take the already-decoded cell, so they do not model that raise.
- Decimal.ParseInt: Python's `int()` also accepts `_` between digits, non-ASCII digits and further Unicode whitespace. The model rejects these, so a watermark file or argument using them raises in the model but not in Python.
- Decimal.IntToString: no limit on the number of digits. Recent Python versions refuse `str()` of integers above 4300 digits.
- `os.path.join` is modelled with the POSIX `/` separator.
- Fetch.LegacyDownloadLoop: requires some page to answer 404, and so do `Fetch.LegacyDownload` and `Legacy.LegacyMain`. This is a hazard in the source: the `while True` loop at program.py:31-42 never ends if the CDN never answers 404, for example if it answers 403 for missing objects. Until then it keeps requesting pages and writing one file per page. The model does not describe that non-terminating run.
- Concurrency: nothing in the source locks the watermark. The model has only sequential updates.
- `print` logging, `download.py` (an argument wrapper around `download_chapter`) and `bot.py` (the chat front end) are not modelled.

=== FILE: addressing.dfy ===
/**
 * Pure string builders: the chapter page URL, the legacy CDN chapter id and
 * page URL, and the local names of saved page images and chapter PDFs.
 * Every builder comes with a decoder or an injectivity lemma, so distinct
 * chapters and pages never share a URL or a file.
 */
module Addressing {
  import opened Wrappers
  import opened Strings
  import opened Decimal

  const PAGE_URL_PREFIX := "https://ww10.readonepiece.com/chapter/one-piece-chapter-"
  const CDN_BASE_URL := "https://cdn.readonepiece.com/file/mangap/2"
  const IMAGE_EXTENSION := ".jpeg"
  const OUTPUT_DIR := "manga_chapters"
  const PDF_PREFIX := "one piece - "
  const PDF_EXTENSION := ".pdf"

  /** Decimal text of a chapter number never contains a path or name separator. */
  lemma IntToStringPlain(i: int)
    ensures '_' !in IntToString(i) && '/' !in IntToString(i)
  {
    var s := IntToString(i);
    forall k | 0 <= k < |s|
      ensures s[k] != '_' && s[k] != '/'
    {
    }
  }

  /** The chapter page that is scraped for image links. */
  function ChapterPageUrl(chapter: int): (url: string)
    ensures PAGE_URL_PREFIX <= url
    ensures url[|url| - 1] == '/'
  {
    PAGE_URL_PREFIX + IntToString(chapter) + "/"
  }

  /** Reads the chapter number back out of a chapter page URL. */
  function ChapterOfPageUrl(url: string): Option<int> {
    if |url| > |PAGE_URL_PREFIX| && PAGE_URL_PREFIX <= url && url[|url| - 1] == '/' then
      ParseInt(url[|PAGE_URL_PREFIX|..|url| - 1])
    else
      None
  }

  /** The chapter page URL determines its chapter. */
  lemma PageUrlRoundTrip(chapter: int)
    ensures ChapterOfPageUrl(ChapterPageUrl(chapter)) == Some(chapter)
  {
    var url := ChapterPageUrl(chapter);
    assert url[|PAGE_URL_PREFIX|..|url| - 1] == IntToString(chapter);
    IntRoundTrip(chapter);
  }

  /** Different chapters are looked up at different pages. */
  lemma PageUrlInjective(a: int, b: int)
    ensures ChapterPageUrl(a) == ChapterPageUrl(b) ==> a == b
  {
    PageUrlRoundTrip(a);
    PageUrlRoundTrip(b);
  }

  /** The legacy CDN folder of a chapter: a `1`, the chapter number, then `000`. */
  function ChapterId(chapter: int): (id: string)
    ensures |id| >= 5 && id[0] == '1' && EndsWith(id, "000")
    ensures '_' !in id && '/' !in id
  {
    IntToStringPlain(chapter);
    "1" + IntToString(chapter) + "000"
  }

  /** Reads the chapter number back out of a legacy chapter id. */
  function ChapterOfId(id: string): Option<int> {
    if |id| >= 4 && id[0] == '1' && EndsWith(id, "000") then ParseInt(id[1..|id| - 3]) else None
  }

  /** The legacy chapter id determines its chapter. */
  lemma ChapterIdRoundTrip(chapter: int)
    ensures ChapterOfId(ChapterId(chapter)) == Some(chapter)
  {
    var id := ChapterId(chapter);
    assert id[1..|id| - 3] == IntToString(chapter);
    IntRoundTrip(chapter);
  }

  /** Page `page` of a chapter on the legacy CDN. */
  function LegacyPageUrl(id: string, page: nat): (url: string)
    ensures (CDN_BASE_URL + "/" + id + "/") <= url
    ensures EndsWith(url, IMAGE_EXTENSION)
  {
    CDN_BASE_URL + "/" + id + "/" + NatToString(page) + IMAGE_EXTENSION
  }

  /** Different pages of one chapter have different legacy URLs. */
  lemma LegacyPageUrlInjective(id: string, p: nat, q: nat)
    ensures LegacyPageUrl(id, p) == LegacyPageUrl(id, q) ==> p == q
  {
    if LegacyPageUrl(id, p) == LegacyPageUrl(id, q) {
      SameFrame(CDN_BASE_URL + "/" + id + "/", NatToString(p), NatToString(q), IMAGE_EXTENSION);
      NatToStringInjective(p, q);
    }
  }

  /** Basename of a saved page image: `<stem>_<page>.jpeg`, whatever the remote format. */
  function AssetName(stem: string, page: nat): (name: string)
    ensures EndsWith(name, IMAGE_EXTENSION)
  {
    stem + "_" + NatToString(page) + IMAGE_EXTENSION
  }

  /** Path of a saved page image inside the output directory. */
  function AssetPath(stem: string, page: nat): string {
    OUTPUT_DIR + "/" + AssetName(stem, page)
  }

  /** Splits `<stem>_<page>.jpeg` at its first underscore. */
  function ParseAssetName(name: string): Option<(string, nat)> {
    if EndsWith(name, IMAGE_EXTENSION) then
      var body := name[..|name| - |IMAGE_EXTENSION|];
      var k := IndexOf(body, '_');
      if k < |body| then
        match ParseNat(body[k + 1..])
        case Some(p) => Some((body[..k], p))
        case None => None
      else
        None
    else
      None
  }

  /** An asset name determines its stem and page when the stem has no underscore. */
  lemma AssetNameRoundTrip(stem: string, page: nat)
    requires '_' !in stem
    ensures ParseAssetName(AssetName(stem, page)) == Some((stem, page))
  {
    var name := AssetName(stem, page);
    var body := name[..|name| - |IMAGE_EXTENSION|];
    assert body == stem + "_" + NatToString(page);
    assert IndexOf(body, '_') == |stem| by {
      assert body[|stem|] == '_';
      assert forall j :: 0 <= j < |stem| ==> body[j] == stem[j];
    }
    assert body[|stem| + 1..] == NatToString(page);
    assert body[..|stem|] == stem;
    NatRoundTrip(page);
  }

  /** Saved images never overwrite each other unless stem and page agree. */
  lemma AssetPathInjective(s1: string, p1: nat, s2: string, p2: nat)
    requires '_' !in s1 && '_' !in s2
    ensures AssetPath(s1, p1) == AssetPath(s2, p2) ==> s1 == s2 && p1 == p2
  {
    if AssetPath(s1, p1) == AssetPath(s2, p2) {
      SameFrame(OUTPUT_DIR + "/", AssetName(s1, p1), AssetName(s2, p2), "");
      AssetNameRoundTrip(s1, p1);
      AssetNameRoundTrip(s2, p2);
    }
  }

  /** The class names the i-th (0-based) image after the chapter number and `i + 1`. */
  function ClassAssetPath(chapter: int, i: nat): string {
    AssetPath(IntToString(chapter), i + 1)
  }

  /** Images of different chapters, or different positions, get different files. */
  lemma ClassAssetPathInjective(c1: int, i1: nat, c2: int, i2: nat)
    ensures ClassAssetPath(c1, i1) == ClassAssetPath(c2, i2) ==> c1 == c2 && i1 == i2
  {
    IntToStringPlain(c1);
    IntToStringPlain(c2);
    AssetPathInjective(IntToString(c1), i1 + 1, IntToString(c2), i2 + 1);
    IntToStringInjective(c1, c2);
  }

  /** The legacy script names page `page` after the chapter id, not the chapter number. */
  function LegacyAssetPath(id: string, page: nat): string {
    AssetPath(id, page)
  }

  /** Legacy files of different chapters, or different pages, never collide. */
  lemma LegacyAssetPathInjective(c1: int, p1: nat, c2: int, p2: nat)
    ensures LegacyAssetPath(ChapterId(c1), p1) == LegacyAssetPath(ChapterId(c2), p2) ==> c1 == c2 && p1 == p2
  {
    AssetPathInjective(ChapterId(c1), p1, ChapterId(c2), p2);
    ChapterIdRoundTrip(c1);
    ChapterIdRoundTrip(c2);
  }

  /** Basename of a chapter's PDF: `one piece - <chapter>.pdf`. */
  function PdfName(chapter: int): (name: string)
    ensures EndsWith(name, PDF_EXTENSION) && !EndsWith(name, IMAGE_EXTENSION)
  {
    var name := PDF_PREFIX + IntToString(chapter) + PDF_EXTENSION;
    assert name[|name| - 1] == 'f';
    name
  }

  /** Path of a chapter's PDF; re-running a chapter overwrites the same file. */
  function PdfPath(chapter: int): string {
    OUTPUT_DIR + "/" + PdfName(chapter)
  }

  /** Different chapters get different PDFs. */
  lemma PdfPathInjective(a: int, b: int)
    ensures PdfPath(a) == PdfPath(b) ==> a == b
  {
    if PdfPath(a) == PdfPath(b) {
      assert PdfPath(a) == OUTPUT_DIR + "/" + PDF_PREFIX + IntToString(a) + PDF_EXTENSION;
      assert PdfPath(b) == OUTPUT_DIR + "/" + PDF_PREFIX + IntToString(b) + PDF_EXTENSION;
      SameFrame(OUTPUT_DIR + "/" + PDF_PREFIX, IntToString(a), IntToString(b), PDF_EXTENSION);
      IntToStringInjective(a, b);
    }
  }
}

=== FILE: decimal.dfy ===
/** Python's `str()` of an `int` and `int()` of a `str`, restricted to ASCII decimal text. */
module Decimal {
  import opened Wrappers
  import opened Strings

  predicate IsDigit(ch: char) {
    '0' <= ch <= '9'
  }

  predicate AllDigits(s: string) {
    forall i :: 0 <= i < |s| ==> IsDigit(s[i])
  }

  function DigitChar(d: nat): (ch: char)
    requires d < 10
    ensures IsDigit(ch) && ch as int - '0' as int == d
  {
    ('0' as int + d) as char
  }

  function DigitValue(ch: char): nat
    requires IsDigit(ch)
  {
    ch as int - '0' as int
  }

  /** `str(n)` for `n >= 0`: shortest decimal text, no leading zero. */
  function NatToString(n: nat): (s: string)
    ensures |s| >= 1 && AllDigits(s)
    ensures |s| > 1 ==> s[0] != '0'
  {
    if n < 10 then [DigitChar(n)] else NatToString(n / 10) + [DigitChar(n % 10)]
  }

  /** `str(i)` for any Python `int`: a minus sign before the magnitude when negative. */
  function IntToString(i: int): (s: string)
    ensures |s| >= 1
    ensures forall k :: 0 <= k < |s| ==> IsDigit(s[k]) || (k == 0 && s[k] == '-')
  {
    if i < 0 then "-" + NatToString(-i) else NatToString(i)
  }

  /** Value of a run of decimal digits, most significant first. */
  function DigitsValue(s: string): nat
    requires AllDigits(s)
  {
    if |s| == 0 then 0 else DigitsValue(s[..|s| - 1]) * 10 + DigitValue(s[|s| - 1])
  }

  /** A non-empty run of decimal digits; leading zeros are accepted, as `int()` accepts them. */
  function ParseNat(s: string): Option<nat> {
    if |s| > 0 && AllDigits(s) then Some(DigitsValue(s)) else None
  }

  /** `int(s)`: surrounding whitespace, an optional sign, then decimal digits. */
  function ParseInt(s: string): Option<int> {
    var t := Strip(s);
    if |t| > 0 && (t[0] == '-' || t[0] == '+') then
      match ParseNat(t[1..])
      case None => None
      case Some(n) => var v: int := n; Some(if t[0] == '-' then -v else v)
    else
      match ParseNat(t)
      case None => None
      case Some(n) => Some(n)
  }

  /** Reading back the decimal text of a natural number gives the number. */
  lemma {:induction false} NatRoundTrip(n: nat)
    ensures ParseNat(NatToString(n)) == Some(n)
  {
    var s := NatToString(n);
    if n >= 10 {
      NatRoundTrip(n / 10);
      assert s[..|s| - 1] == NatToString(n / 10);
      assert DigitValue(s[|s| - 1]) == n % 10;
      assert DigitsValue(s) == (n / 10) * 10 + n % 10;
    }
  }

  /** `int(str(i)) == i` for every integer. */
  lemma IntRoundTrip(i: int)
    ensures ParseInt(IntToString(i)) == Some(i)
  {
    var s := IntToString(i);
    StripUntouched(s);
    assert Strip(s) == s;
    if i < 0 {
      var m := NatToString(-i);
      assert s == "-" + m;
      assert s[1..] == m;
      NatRoundTrip(-i);
      assert ParseNat(s[1..]) == Some(-i);
    } else {
      assert s == NatToString(i);
      assert s[0] != '-' && s[0] != '+';
      NatRoundTrip(i);
    }
  }

  /** Distinct integers have distinct decimal texts. */
  lemma IntToStringInjective(a: int, b: int)
    ensures IntToString(a) == IntToString(b) ==> a == b
  {
    IntRoundTrip(a);
    IntRoundTrip(b);
  }

  /** Distinct naturals have distinct decimal texts. */
  lemma NatToStringInjective(a: nat, b: nat)
    ensures NatToString(a) == NatToString(b) ==> a == b
  {
    NatRoundTrip(a);
    NatRoundTrip(b);
  }
}

=== FILE: downloader.dfy ===
/**
 * `MangaDownloader.download_chapter` and the members it reaches: `get_url`,
 * `images_to_pdf`, and the zero-argument `delete_images` that the class body
 * defines last and that therefore replaces the one-argument version.
 */
module Downloader {
  import opened Wrappers
  import opened Errors
  import opened Strings
  import opened Decimal
  import opened Addressing
  import opened LinkFilter
  import opened Fetch
  import opened Watermark

  /** A chapter PDF: where it was written and its page images, in order. */
  datatype Document = Document(path: string, pages: seq<string>)

  /** `images_to_pdf`: one grey-scale page per image, in order; it indexes the first image. */
  function ImagesToPdf(imagePaths: seq<string>, outputPdf: string): Document
    requires |imagePaths| > 0
  {
    Document(outputPdf, imagePaths)
  }

  /** What the call hands back to its caller. */
  datatype Outcome =
    | ReturnedNone
    | ReturnedPdf(path: string)
    | Raised(error: Error)

  /** Everything a `download_chapter` call leaves behind. */
  datatype Run = Run(
    outcome: Outcome,
    chapter: int,
    watermark: Cell,
    document: Option<Document>,
    imagesOnDisk: seq<string>,
    requested: seq<string>)

  /** The chapter a call works on: the given one, or the one after the watermark. */
  function ChosenChapter(chapter: Option<int>, stored: Cell): int {
    match chapter
    case Some(c) => c
    case None => NextChapter(stored)
  }

  /**
   * `download_chapter` as written. `page` is the response to the chosen
   * chapter's page and `statuses[i]` answers the request for its i-th image.
   * With images found and `deleteImages` set (the default), the call
   * `self.delete_images(images)` reaches the zero-argument redefinition and
   * raises before the watermark is saved.
   */
  function DownloadChapter(chapter: Option<int>, deleteImages: bool, stored: Cell,
                           page: PageResponse, statuses: seq<int>): Run
    requires page.Fetched? ==> |page.srcs| <= |statuses|
  {
    var c := ChosenChapter(chapter, stored);
    var log := DownloadImages(c, page, statuses);
    if |log.saved| == 0 then
      Run(ReturnedNone, c, stored, None, [], log.requested)
    else
      var pdf := PdfPath(c);
      var doc := ImagesToPdf(log.saved, pdf);
      if deleteImages then
        Run(Raised(DeleteImagesArity), c, stored, Some(doc), log.saved, log.requested)
      else
        match SaveLastChapter(stored, c)
        case Failure(e) => Run(Raised(e), c, stored, Some(doc), log.saved, log.requested)
        case Success(w) => Run(ReturnedPdf(pdf), c, w, Some(doc), log.saved, log.requested)
  }

  /**
   * The PDF, when one is written, holds exactly the images saved before the
   * first 404, named after the chapter and their 1-based position.
   */
  lemma DownloadChapterDocument(chapter: Option<int>, deleteImages: bool, stored: Cell,
                                page: PageResponse, statuses: seq<int>)
    requires page.Fetched? ==> |page.srcs| <= |statuses|
    ensures var run := DownloadChapter(chapter, deleteImages, stored, page, statuses);
      && run.chapter == ChosenChapter(chapter, stored)
      && run.requested[0] == ChapterPageUrl(run.chapter)
      && (run.document.Some? <==> FirstNotFound(statuses[..|CdnImages(page)|]) > 0)
      && (run.document.Some? ==>
            && run.document.value.path == PdfPath(run.chapter)
            && |run.document.value.pages| == FirstNotFound(statuses[..|CdnImages(page)|])
            && forall i :: 0 <= i < |run.document.value.pages| ==>
                 run.document.value.pages[i] == ClassAssetPath(run.chapter, i) && statuses[i] != NOT_FOUND)
  {
    var run := DownloadChapter(chapter, deleteImages, stored, page, statuses);
    var c := ChosenChapter(chapter, stored);
    var log := DownloadImages(c, page, statuses);
    DownloadImagesShape(c, page, statuses);
    assert run.chapter == c && run.requested == log.requested;
    assert run.document.Some? <==> |log.saved| > 0;
    if run.document.Some? {
      assert run.document.value.pages == log.saved;
      assert run.document.value.path == PdfPath(c);
    }
  }

  /**
   * The outcome table: no images returns `None` and keeps the watermark;
   * otherwise the default call raises on `delete_images`, a missing watermark
   * raises on the comparison, and only the remaining case returns the PDF
   * path with the watermark raised to the chapter.
   */
  lemma DownloadChapterOutcomes(chapter: Option<int>, deleteImages: bool, stored: Cell,
                                page: PageResponse, statuses: seq<int>)
    requires page.Fetched? ==> |page.srcs| <= |statuses|
    ensures var run := DownloadChapter(chapter, deleteImages, stored, page, statuses);
      && (run.document.None? ==> run.outcome == ReturnedNone && run.watermark == stored)
      && (run.document.Some? && deleteImages ==> run.outcome == Raised(DeleteImagesArity) && run.watermark == stored)
      && (run.document.Some? && !deleteImages && stored.None? ==>
            run.outcome == Raised(CompareWithNone) && run.watermark == None)
      && (run.document.Some? && !deleteImages && stored.Some? ==>
            run.outcome == ReturnedPdf(PdfPath(run.chapter))
            && run.watermark == Some(Max(stored.value, run.chapter)))
  {
  }

  /** Called with its default arguments, the class never moves the watermark. */
  lemma DefaultCallNeverAdvances(chapter: Option<int>, stored: Cell, page: PageResponse, statuses: seq<int>)
    requires page.Fetched? ==> |page.srcs| <= |statuses|
    ensures DownloadChapter(chapter, true, stored, page, statuses).watermark == stored
    ensures DownloadChapter(chapter, true, stored, page, statuses).outcome.ReturnedPdf? == false
  {
  }

  /** The example link is accepted by the pattern. */
  lemma ExampleLinkMatches(src: string)
    requires src == "https://cdn.x/1.jpeg"
    ensures CdnPattern(src)
  {
    assert CDN_PREFIX <= src;
    assert src[15..20] == ".jpeg";
    assert ExtensionAt(src, 15);
    assert NoNewline(src, |CDN_PREFIX|, 15);
  }

  /** A page holding one CDN image link yields that link. */
  lemma OneImagePage(src: string)
    requires src == "https://cdn.x/1.jpeg"
    ensures CdnImages(Fetched([src])) == [src]
  {
    ExampleLinkMatches(src);
    assert '\r' !in src && '?' !in src;
    RemoveCRFacts(src);
    StripQueryFacts(src);
    var srcs := [src];
    assert RemoveCR(srcs[0]) == src;
    assert srcs[..0] == [];
    assert Candidates(srcs) == [src];
    assert StripQuery(src) == src;
    assert StripQueries([src]) == [src];
  }

  /** Concrete instance: chapter 1130, one image answered 200, a stored 1129, default arguments. */
  lemma DefaultCallRaisesExample(src: string, statuses: seq<int>)
    requires src == "https://cdn.x/1.jpeg" && statuses == [200]
    ensures DownloadChapter(Some(1130), true, Some(1129), Fetched([src]), statuses).outcome == Raised(DeleteImagesArity)
    ensures DownloadChapter(Some(1130), true, Some(1129), Fetched([src]), statuses).watermark == Some(1129)
  {
    var page := Fetched([src]);
    OneImagePage(src);
    assert statuses[..1] == statuses;
    assert FirstNotFound(statuses) == 1;
    DownloadChapterDocument(Some(1130), true, Some(1129), page, statuses);
    DownloadChapterOutcomes(Some(1130), true, Some(1129), page, statuses);
  }

  /** Without a watermark file no call of the class, with any arguments, ever creates one. */
  lemma AsWrittenNeverCreatesWatermark(chapter: Option<int>, deleteImages: bool,
                                       page: PageResponse, statuses: seq<int>)
    requires page.Fetched? ==> |page.srcs| <= |statuses|
    ensures DownloadChapter(chapter, deleteImages, None, page, statuses).watermark == None
  {
  }

  /**
   * `download_chapter` as evidently intended: the one-argument
   * `delete_images` removes the saved images, and the watermark update
   * treats a missing file as "store the chapter".
   */
  function DownloadChapterCorrected(chapter: Option<int>, deleteImages: bool, stored: Cell,
                                    page: PageResponse, statuses: seq<int>): Run
    requires page.Fetched? ==> |page.srcs| <= |statuses|
  {
    var c := ChosenChapter(chapter, stored);
    var log := DownloadImages(c, page, statuses);
    if |log.saved| == 0 then
      Run(ReturnedNone, c, stored, None, [], log.requested)
    else
      var pdf := PdfPath(c);
      var doc := ImagesToPdf(log.saved, pdf);
      var left := if deleteImages then [] else log.saved;
      Run(ReturnedPdf(pdf), c, AdvanceWatermark(stored, c), Some(doc), left, log.requested)
  }

  /**
   * Corrected run: whenever images are found the PDF path is returned and the
   * watermark becomes the larger of the stored value and the chapter (the
   * chapter itself when none was stored); with no images nothing changes.
   * Deleting leaves no image on disk.
   */
  lemma CorrectedRunAdvances(chapter: Option<int>, deleteImages: bool, stored: Cell,
                             page: PageResponse, statuses: seq<int>)
    requires page.Fetched? ==> |page.srcs| <= |statuses|
    ensures var run := DownloadChapterCorrected(chapter, deleteImages, stored, page, statuses);
      && run.chapter == ChosenChapter(chapter, stored)
      && run.document == DownloadChapter(chapter, deleteImages, stored, page, statuses).document
      && run.requested == DownloadChapter(chapter, deleteImages, stored, page, statuses).requested
      && (run.document.Some? <==> FirstNotFound(statuses[..|CdnImages(page)|]) > 0)
      && (run.document.None? <==> run.outcome == ReturnedNone)
      && (run.document.None? ==> run.watermark == stored)
      && (run.document.Some? ==>
            && run.outcome == ReturnedPdf(PdfPath(run.chapter))
            && run.watermark.Some?
            && run.chapter <= run.watermark.value
            && (stored.Some? ==> run.watermark == Some(Max(stored.value, run.chapter)))
            && (stored.None? ==> run.watermark == Some(run.chapter))
            && (run.imagesOnDisk == [] <==> deleteImages))
  {
    var run := DownloadChapterCorrected(chapter, deleteImages, stored, page, statuses);
    DownloadChapterDocument(chapter, deleteImages, stored, page, statuses);
    if run.document.Some? {
      assert |run.document.value.pages| > 0;
    }
  }

  /**
   * Concrete instance of the corrected call: chapter 1130, one image answered
   * 200, a stored 1129, default arguments. It returns the PDF path and moves
   * the watermark to 1130.
   */
  lemma CorrectedCallExample(src: string, statuses: seq<int>)
    requires src == "https://cdn.x/1.jpeg" && statuses == [200]
    ensures DownloadChapterCorrected(Some(1130), true, Some(1129), Fetched([src]), statuses).outcome
      == ReturnedPdf(PdfPath(1130))
    ensures DownloadChapterCorrected(Some(1130), true, Some(1129), Fetched([src]), statuses).watermark == Some(1130)
  {
    var page := Fetched([src]);
    OneImagePage(src);
    assert statuses[..1] == statuses;
    assert FirstNotFound(statuses) == 1;
    CorrectedRunAdvances(Some(1130), true, Some(1129), page, statuses);
  }

  /** Corrected runs never lower the watermark. */
  lemma CorrectedRunMonotone(chapter: Option<int>, deleteImages: bool, stored: Cell,
                             page: PageResponse, statuses: seq<int>)
    requires page.Fetched? ==> |page.srcs| <= |statuses|
    requires stored.Some?
    ensures var run := DownloadChapterCorrected(chapter, deleteImages, stored, page, statuses);
      run.watermark.Some? && stored.value <= run.watermark.value
  {
  }

  /**
   * A corrected "latest" run that finds images moves the watermark forward
   * by exactly one chapter.
   */
  lemma CorrectedLatestRunStepsByOne(deleteImages: bool, last: int, page: PageResponse, statuses: seq<int>)
    requires page.Fetched? ==> |page.srcs| <= |statuses|
    ensures var run := DownloadChapterCorrected(None, deleteImages, Some(last), page, statuses);
      run.document.Some? ==> run.watermark == Some(last + 1)
  {
    assert NextChapter(Some(last)) == last + 1;
    assert AdvanceWatermark(Some(last), last + 1) == Some(last + 1);
  }

  /** `get_url`: the given chapter, or the chapter stored in the watermark file. */
  function GetUrl(chapter: Option<int>, file: Option<string>): Result<string, Error> {
    match chapter
    case Some(c) => Success(ChapterPageUrl(c))
    case None =>
      match file
      case None => Failure(WatermarkFileMissing)
      case Some(text) =>
        match ParseInt(Strip(text))
        case None => Failure(NotAnInteger)
        case Some(v) => Success(ChapterPageUrl(v))
  }

  /**
   * Without a chapter, `get_url` addresses the stored chapter itself, one
   * before the chapter `download_chapter` would choose; without a file it raises.
   */
  lemma GetUrlAddressesStoredChapter(c: int)
    ensures GetUrl(None, Some(WatermarkText(c))) == Success(ChapterPageUrl(c))
    ensures ChapterOfPageUrl(GetUrl(None, Some(WatermarkText(c))).value) == Some(c)
    ensures c != NextChapter(Some(c))
    ensures GetUrl(None, None) == Failure(WatermarkFileMissing)
  {
    WatermarkFileRoundTrip(c);
    PageUrlRoundTrip(c);
  }

  /**
   * The zero-argument `delete_images` that the class keeps: every file of
   * the output directory ending in `.jpeg` goes, whatever run saved it.
   */
  function SweepImages(files: set<string>): set<string> {
    set f | f in files && !EndsWith(f, IMAGE_EXTENSION)
  }

  /**
   * The sweep removes every saved page image, of any chapter, and keeps every
   * chapter PDF; a second sweep changes nothing.
   */
  lemma SweepRemovesImagesKeepsPdfs(files: set<string>, stem: string, p: nat, c: int)
    ensures AssetName(stem, p) !in SweepImages(files)
    ensures PdfName(c) in files ==> PdfName(c) in SweepImages(files)
    ensures SweepImages(files) <= files
    ensures SweepImages(SweepImages(files)) == SweepImages(files)
  {
  }
}

=== FILE: errors.dfy ===
/** The exceptions the downloader's control flow can raise. */
module Errors {

  datatype Error =
      /** `TypeError` from `chapter > None` when no watermark file exists. */
    | CompareWithNone
      /** `TypeError`: the zero-argument `delete_images` is called with a list of paths. */
    | DeleteImagesArity
      /** `ValueError` from `int(...)` on text that is not a decimal integer. */
    | NotAnInteger
      /** `FileNotFoundError` from opening a watermark file that does not exist. */
    | WatermarkFileMissing
}

=== FILE: fetch.dfy ===
/**
 * The two `download_images` loops. Both request candidates in order and stop
 * at the first response whose status is 404; any other status, errors
 * included, has its body saved as the next page image.
 */
module Fetch {
  import opened Addressing
  import opened LinkFilter

  const NOT_FOUND := 404

  /** Position of the first 404 among `statuses`, or `|statuses|` when none is 404. */
  function FirstNotFound(statuses: seq<int>): (k: nat)
    ensures k <= |statuses|
    ensures forall j :: 0 <= j < k ==> statuses[j] != NOT_FOUND
    ensures k < |statuses| ==> statuses[k] == NOT_FOUND
  {
    if |statuses| == 0 || statuses[0] == NOT_FOUND then 0 else 1 + FirstNotFound(statuses[1..])
  }

  /** Any stopping point that passes only non-404s and ends at a 404 or the end is the first 404. */
  lemma FirstNotFoundUnique(statuses: seq<int>, i: nat)
    requires i <= |statuses|
    requires forall j :: 0 <= j < i ==> statuses[j] != NOT_FOUND
    requires i < |statuses| ==> statuses[i] == NOT_FOUND
    ensures FirstNotFound(statuses) == i
  {
  }

  /** What a download loop leaves behind: the files saved and every URL requested, in order. */
  datatype FetchLog = FetchLog(saved: seq<string>, requested: seq<string>)

  /**
   * Reference outcome of the class's `download_images`: the chapter page is
   * requested, then candidate `i` is requested and answered `statuses[i]`
   * until the first 404; each earlier candidate is saved as image `i + 1`.
   */
  function DownloadImages(chapter: int, page: PageResponse, statuses: seq<int>): FetchLog
    requires page.Fetched? ==> |page.srcs| <= |statuses|
  {
    var images := CdnImages(page);
    var k := FirstNotFound(statuses[..|images|]);
    var asked := if k < |images| then k + 1 else k;
    FetchLog(seq(k, i requires 0 <= i < k => ClassAssetPath(chapter, i)),
             [ChapterPageUrl(chapter)] + images[..asked])
  }

  /**
   * The reference outcome requests the chapter page, then the candidates up
   * to and including the first 404, and saves image `i + 1` for each
   * candidate before it.
   */
  lemma DownloadImagesShape(chapter: int, page: PageResponse, statuses: seq<int>)
    requires page.Fetched? ==> |page.srcs| <= |statuses|
    ensures var log := DownloadImages(chapter, page, statuses);
      && |log.saved| == FirstNotFound(statuses[..|CdnImages(page)|])
      && (forall i :: 0 <= i < |log.saved| ==> log.saved[i] == ClassAssetPath(chapter, i) && statuses[i] != NOT_FOUND)
      && |log.requested| >= 1 && log.requested[0] == ChapterPageUrl(chapter)
  {
    var images := CdnImages(page);
    var prefix := statuses[..|images|];
    var k := FirstNotFound(prefix);
    assert forall i :: 0 <= i < k ==> statuses[i] == prefix[i];
  }

  /** `download_images` in the class, as its loop runs. */
  method DownloadImagesLoop(chapter: int, page: PageResponse, statuses: seq<int>)
      returns (saved: seq<string>, requested: seq<string>)
    requires page.Fetched? ==> |page.srcs| <= |statuses|
    ensures |saved| <= |CdnImages(page)|
    ensures forall i :: 0 <= i < |saved| ==> saved[i] == ClassAssetPath(chapter, i) && statuses[i] != NOT_FOUND
    ensures |saved| < |CdnImages(page)| ==> statuses[|saved|] == NOT_FOUND
    ensures |requested| >= 1 && requested[0] == ChapterPageUrl(chapter)
    ensures requested[1..] <= CdnImages(page)
    ensures |requested| - 1 == if |saved| < |CdnImages(page)| then |saved| + 1 else |saved|
    ensures FetchLog(saved, requested) == DownloadImages(chapter, page, statuses)
  {
    var images := FindCdnImages(page);
    requested := [ChapterPageUrl(chapter)];
    saved := [];
    var i := 0;
    while i < |images|
      invariant 0 <= i <= |images|
      invariant |saved| == i
      invariant forall j :: 0 <= j < i ==> saved[j] == ClassAssetPath(chapter, j) && statuses[j] != NOT_FOUND
      invariant requested == [ChapterPageUrl(chapter)] + images[..i]
    {
      requested := requested + [images[i]];
      assert images[..i + 1] == images[..i] + [images[i]];
      if statuses[i] == NOT_FOUND {
        break;
      }
      saved := saved + [ClassAssetPath(chapter, i)];
      i := i + 1;
    }
    assert requested[1..] == images[..|requested| - 1];
    LoopMatchesDownloadImages(chapter, page, statuses, saved, requested);
  }

  /** A run that saved and requested as the loop does has the reference outcome. */
  lemma LoopMatchesDownloadImages(chapter: int, page: PageResponse, statuses: seq<int>,
                                  saved: seq<string>, requested: seq<string>)
    requires page.Fetched? ==> |page.srcs| <= |statuses|
    requires |saved| <= |CdnImages(page)|
    requires forall i :: 0 <= i < |saved| ==> saved[i] == ClassAssetPath(chapter, i) && statuses[i] != NOT_FOUND
    requires |saved| < |CdnImages(page)| ==> statuses[|saved|] == NOT_FOUND
    requires |requested| >= 1 && requested[0] == ChapterPageUrl(chapter)
    requires requested[1..] <= CdnImages(page)
    requires |requested| - 1 == if |saved| < |CdnImages(page)| then |saved| + 1 else |saved|
    ensures FetchLog(saved, requested) == DownloadImages(chapter, page, statuses)
  {
    var images := CdnImages(page);
    var prefix := statuses[..|images|];
    assert forall j :: 0 <= j < |saved| ==> prefix[j] != NOT_FOUND;
    FirstNotFoundUnique(prefix, |saved|);
    var log := DownloadImages(chapter, page, statuses);
    assert saved == log.saved;
    assert requested == [requested[0]] + requested[1..];
    assert requested == log.requested;
  }

  /**
   * Reference outcome of the legacy `download_images`: page `p` (from 1) is
   * requested and answered `statuses[p - 1]`; pages before the first 404 are
   * saved under the chapter id.
   */
  function LegacyDownload(id: string, statuses: seq<int>): FetchLog
    requires NOT_FOUND in statuses
  {
    var k := FirstNotFound(statuses);
    FetchLog(seq(k, i requires 0 <= i < k => LegacyAssetPath(id, i + 1)),
             seq(k + 1, i requires 0 <= i < k + 1 => LegacyPageUrl(id, i + 1)))
  }

  /**
   * The legacy fetch requests pages 1 to k + 1 of the chapter id, where page
   * k + 1 is the first to answer 404, and saves pages 1 to k under the id.
   */
  lemma LegacyDownloadShape(id: string, statuses: seq<int>)
    requires NOT_FOUND in statuses
    ensures var log := LegacyDownload(id, statuses);
      && |log.requested| == |log.saved| + 1
      && |log.saved| < |statuses| && statuses[|log.saved|] == NOT_FOUND
      && (forall p :: 1 <= p <= |log.saved| ==> log.saved[p - 1] == LegacyAssetPath(id, p) && statuses[p - 1] != NOT_FOUND)
      && (forall p :: 1 <= p <= |log.requested| ==> log.requested[p - 1] == LegacyPageUrl(id, p))
  {
    var k := FirstNotFound(statuses);
    assert k < |statuses|;
  }

  /**
   * `download_images` in the legacy script, as its unbounded loop runs. It
   * ends only because some page answers 404, which the precondition states.
   */
  method LegacyDownloadLoop(id: string, statuses: seq<int>) returns (saved: seq<string>, requested: seq<string>)
    requires NOT_FOUND in statuses
    ensures |requested| == |saved| + 1
    ensures |saved| < |statuses| && statuses[|saved|] == NOT_FOUND
    ensures forall p :: 1 <= p <= |saved| ==> saved[p - 1] == LegacyAssetPath(id, p) && statuses[p - 1] != NOT_FOUND
    ensures forall p :: 1 <= p <= |requested| ==> requested[p - 1] == LegacyPageUrl(id, p)
    ensures FetchLog(saved, requested) == LegacyDownload(id, statuses)
  {
    ghost var k := FirstNotFound(statuses);
    assert k < |statuses|;
    var page := 1;
    saved := [];
    requested := [];
    while true
      invariant 1 <= page <= k + 1
      invariant |saved| == page - 1 == |requested|
      invariant forall p :: 1 <= p < page ==> saved[p - 1] == LegacyAssetPath(id, p) && statuses[p - 1] != NOT_FOUND
      invariant forall p :: 1 <= p < page ==> requested[p - 1] == LegacyPageUrl(id, p)
      decreases k + 1 - page
    {
      requested := requested + [LegacyPageUrl(id, page)];
      if statuses[page - 1] == NOT_FOUND {
        break;
      }
      saved := saved + [LegacyAssetPath(id, page)];
      page := page + 1;
    }
    assert page - 1 == k;
    var log := LegacyDownload(id, statuses);
    assert saved == log.saved;
    assert requested == log.requested;
  }
}

=== FILE: legacy.dfy ===
/**
 * `main` of the stand-alone script: chapter from the command line or the
 * watermark, pages fetched from the legacy CDN by page number until a 404,
 * then the PDF, the deletion of the page files, and an unconditional
 * watermark write.
 */
module Legacy {
  import opened Wrappers
  import opened Errors
  import opened Decimal
  import opened Addressing
  import opened Fetch
  import opened Watermark
  import opened Downloader

  /** Everything one run of the script leaves behind. */
  datatype LegacyRun = LegacyRun(
    failure: Option<Error>,
    chapter: Option<int>,
    watermark: Cell,
    document: Option<Document>,
    imagesOnDisk: seq<string>,
    requested: seq<string>)

  /** `int(argv[1])` when an argument is given, else the chapter after the watermark. */
  function LegacyChapter(arg: Option<string>, stored: Cell): Option<int> {
    match arg
    case Some(a) => ParseInt(a)
    case None => Some(NextChapter(stored))
  }

  /**
   * `main`. `statuses[p - 1]` answers the request for page `p` of the chosen
   * chapter; the loop ends only at a 404, which the precondition promises.
   */
  function LegacyMain(arg: Option<string>, stored: Cell, statuses: seq<int>): LegacyRun
    requires NOT_FOUND in statuses
  {
    match LegacyChapter(arg, stored)
    case None => LegacyRun(Some(NotAnInteger), None, stored, None, [], [])
    case Some(c) =>
      var log := LegacyDownload(ChapterId(c), statuses);
      if |log.saved| == 0 then
        LegacyRun(None, Some(c), stored, None, [], log.requested)
      else
        LegacyRun(None, Some(c), Some(c), Some(ImagesToPdf(log.saved, PdfPath(c))), [], log.requested)
  }

  /** A decimal argument selects its own chapter; without one the chapter after the watermark is used. */
  lemma LegacyChapterChoice(c: int, stored: Cell)
    ensures LegacyChapter(Some(IntToString(c)), stored) == Some(c)
    ensures LegacyChapter(None, stored) == Some(NextChapter(stored))
  {
    IntRoundTrip(c);
  }

  /**
   * A run with a chapter requests pages 1, 2, ... of the chapter id up to and
   * including the first 404; the PDF, named by chapter number, holds the
   * earlier pages, named by chapter id; the page files are deleted; and the
   * watermark is overwritten with the chapter whenever a page was found,
   * otherwise kept. An argument `int()` rejects raises before any request.
   */
  lemma LegacyRunEffects(arg: Option<string>, stored: Cell, statuses: seq<int>)
    requires NOT_FOUND in statuses
    ensures var run := LegacyMain(arg, stored, statuses);
      && run.chapter == LegacyChapter(arg, stored)
      && run.imagesOnDisk == []
      && (run.chapter.None? ==> run.failure == Some(NotAnInteger) && run.watermark == stored && run.requested == [])
      && (run.chapter.Some? ==> run.failure.None? && run.requested == LegacyDownload(ChapterId(run.chapter.value), statuses).requested)
      && (run.chapter.Some? ==> (run.document.Some? <==> statuses[0] != NOT_FOUND))
      && (run.chapter.Some? && run.document.None? ==> run.watermark == stored)
      && (run.document.Some? ==>
            && run.chapter.Some?
            && run.document.value.path == PdfPath(run.chapter.value)
            && run.document.value.pages == LegacyDownload(ChapterId(run.chapter.value), statuses).saved
            && run.watermark == Some(run.chapter.value))
  {
    var run := LegacyMain(arg, stored, statuses);
    if run.chapter.Some? {
      var log := LegacyDownload(ChapterId(run.chapter.value), statuses);
      assert |log.saved| == FirstNotFound(statuses);
    }
  }

  /** The script's watermark is not monotone: an older chapter run after a newer one lowers it. */
  lemma LegacyWatermarkCanDecrease(arg: string, statuses: seq<int>)
    requires arg == IntToString(3) && statuses == [200, 404]
    ensures LegacyMain(Some(arg), Some(10), statuses).watermark == Some(3)
  {
    IntRoundTrip(3);
    assert FirstNotFound(statuses) == 1;
  }
}

=== FILE: link_filter.dfy ===
/**
 * `find_cdn_images`: which `<img src>` values of a chapter page are kept as
 * page images. The page itself is abstracted to the sequence of its `src`
 * attributes in document order; a failed request yields no links.
 */
module LinkFilter {
  import opened Strings

  /** Literal start of the pattern `https://cdn.*\.(png|jpeg)`. */
  const CDN_PREFIX := "https://cdn"

  /** Outcome of requesting the chapter page. */
  datatype PageResponse =
    | Fetched(srcs: seq<string>)
    | RequestFailed

  /** `src.replace('\r', '')`. */
  function RemoveCR(s: string): string {
    if |s| == 0 then [] else (if s[0] == '\r' then [] else [s[0]]) + RemoveCR(s[1..])
  }

  /** Every carriage return goes and every other character stays, as often as it occurred. */
  lemma {:induction false} RemoveCRFacts(s: string)
    ensures '\r' !in RemoveCR(s)
    ensures forall ch :: ch != '\r' ==> multiset(RemoveCR(s))[ch] == multiset(s)[ch]
    ensures '\r' !in s ==> RemoveCR(s) == s
  {
    if |s| > 0 {
      RemoveCRFacts(s[1..]);
      assert s == [s[0]] + s[1..];
    }
  }

  /**
   * The removal works character by character and keeps the order: it
   * distributes over concatenation, and a single character survives unless it
   * is a carriage return. Together these determine `RemoveCR` on every string.
   */
  lemma {:induction false} RemoveCRConcat(a: string, b: string)
    ensures RemoveCR(a + b) == RemoveCR(a) + RemoveCR(b)
    ensures |a| == 1 ==> RemoveCR(a) == (if a[0] == '\r' then [] else a)
    decreases |a|
  {
    if |a| > 0 {
      assert (a + b)[1..] == a[1..] + b;
      RemoveCRConcat(a[1..], b);
      if |a| == 1 {
        assert a[1..] == [];
      }
    } else {
      assert a + b == b;
    }
  }

  /** A `.png` or `.jpeg` starts at position `k`. */
  predicate ExtensionAt(s: string, k: nat) {
    (k + 4 <= |s| && s[k..k + 4] == ".png") || (k + 5 <= |s| && s[k..k + 5] == ".jpeg")
  }

  /** No newline among `s[lo..hi]`: what the pattern's `.*` may span. */
  predicate NoNewline(s: string, lo: nat, hi: nat)
    requires lo <= hi <= |s|
  {
    forall i :: lo <= i < hi ==> s[i] != '\n'
  }

  /**
   * `re.match(r'https://cdn.*\.(png|jpeg)', s)` succeeds: `s` starts with
   * `https://cdn` and a `.png` or `.jpeg` begins somewhere after it with no
   * newline in between. Nothing is required of the text after the extension.
   */
  predicate CdnPattern(s: string) {
    && CDN_PREFIX <= s
    && exists k :: |CDN_PREFIX| <= k <= |s| && NoNewline(s, |CDN_PREFIX|, k) && ExtensionAt(s, k)
  }

  /** The matcher's scan: try each position after the prefix, give up at the first newline. */
  method MatchesCdnPattern(s: string) returns (b: bool)
    ensures b <==> CdnPattern(s)
  {
    if !(CDN_PREFIX <= s) {
      return false;
    }
    var k := |CDN_PREFIX|;
    while k < |s|
      invariant |CDN_PREFIX| <= k <= |s|
      invariant NoNewline(s, |CDN_PREFIX|, k)
      invariant forall j :: |CDN_PREFIX| <= j < k ==> !ExtensionAt(s, j)
    {
      if ExtensionAt(s, k) {
        return true;
      }
      if s[k] == '\n' {
        forall j | k < j <= |s|
          ensures !NoNewline(s, |CDN_PREFIX|, j)
        {
          assert s[k] == '\n';
        }
        return false;
      }
      k := k + 1;
    }
    assert !ExtensionAt(s, |s|);
    return false;
  }

  /** Drops characters up to, not including, the next newline: what `.*` consumes. */
  function SkipLine(s: string): (r: string)
    ensures |r| <= |s| && r == s[|s| - |r|..]
    ensures |r| > 0 ==> r[0] == '\n'
    ensures forall i :: 0 <= i < |s| - |r| ==> s[i] != '\n'
  {
    if |s| == 0 || s[0] == '\n' then s else SkipLine(s[1..])
  }

  /**
   * `re.sub(r'\?.*', '', s)`: each `?` is removed together with the rest of
   * its line; scanning resumes at the newline, which is kept.
   */
  function StripQuery(s: string): string
    decreases |s|
  {
    if |s| == 0 then []
    else if s[0] == '?' then StripQuery(SkipLine(s[1..]))
    else [s[0]] + StripQuery(s[1..])
  }

  /**
   * The strip leaves no `?`, keeps everything before the first `?` as a
   * prefix, and changes nothing in a URL without `?`.
   */
  lemma {:induction false} StripQueryFacts(s: string)
    ensures '?' !in StripQuery(s)
    ensures '?' !in s ==> StripQuery(s) == s
    ensures s[..IndexOf(s, '?')] <= StripQuery(s)
    decreases |s|
  {
    if |s| == 0 {
    } else if s[0] == '?' {
      StripQueryFacts(SkipLine(s[1..]));
    } else {
      StripQueryFacts(s[1..]);
      assert s[1..][..IndexOf(s[1..], '?')] == s[..IndexOf(s, '?')][1..];
    }
  }

  /** The strip adds no character: the result's multiset of characters is contained in the input's. */
  lemma {:induction false} StripQueryDeletesOnly(s: string)
    ensures multiset(StripQuery(s)) <= multiset(s)
    decreases |s|
  {
    if |s| == 0 {
    } else if s[0] == '?' {
      var rest := SkipLine(s[1..]);
      StripQueryDeletesOnly(rest);
      assert s == s[..|s| - |rest|] + rest;
      assert multiset(s) == multiset(s[..|s| - |rest|]) + multiset(rest);
    } else {
      StripQueryDeletesOnly(s[1..]);
      assert s == [s[0]] + s[1..];
      assert multiset(s) == multiset([s[0]]) + multiset(s[1..]);
    }
  }

  /** On a single-line URL the strip cuts everything from the first `?` on. */
  lemma {:induction false} StripQuerySingleLine(s: string)
    requires '\n' !in s
    ensures StripQuery(s) == s[..IndexOf(s, '?')]
    decreases |s|
  {
    if |s| == 0 {
    } else if s[0] == '?' {
      assert SkipLine(s[1..]) == [];
    } else {
      StripQuerySingleLine(s[1..]);
      assert s[..IndexOf(s, '?')] == [s[0]] + s[1..][..IndexOf(s[1..], '?')];
    }
  }

  /** Skipping the rest of a line never crosses the newline that ends it. */
  lemma {:induction false} SkipLineSplit(a: string, b: string)
    ensures SkipLine(a + "\n" + b) == (if |SkipLine(a)| > 0 then SkipLine(a) + "\n" + b else "\n" + b)
    decreases |a|
  {
    if |a| > 0 && a[0] != '\n' {
      assert (a + "\n" + b)[1..] == a[1..] + "\n" + b;
      SkipLineSplit(a[1..], b);
    }
  }

  /**
   * The strip works line by line: a `?` removes only the rest of its own
   * line, and the newline and the following lines are stripped independently.
   * With `StripQuerySingleLine` this determines `StripQuery` on every string.
   */
  lemma {:induction false} StripQueryLines(a: string, b: string)
    ensures StripQuery(a + "\n" + b) == StripQuery(a) + "\n" + StripQuery(b)
    decreases |a|, 1
  {
    var s := a + "\n" + b;
    if |a| == 0 {
      assert s == "\n" + b && s[0] == '\n' && s[1..] == b;
      assert StripQuery(s) == [s[0]] + StripQuery(s[1..]);
    } else if a[0] == '?' {
      StripQueryLinesAtQuery(a, b);
    } else {
      assert s[0] == a[0] && s[1..] == a[1..] + "\n" + b;
      assert StripQuery(s) == [a[0]] + StripQuery(s[1..]);
      StripQueryLines(a[1..], b);
    }
  }

  /** The case of `StripQueryLines` where the first line begins with `?`. */
  lemma {:induction false} StripQueryLinesAtQuery(a: string, b: string)
    requires |a| > 0 && a[0] == '?'
    ensures StripQuery(a + "\n" + b) == StripQuery(a) + "\n" + StripQuery(b)
    decreases |a|, 0
  {
    var s := a + "\n" + b;
    assert s[0] == '?' && s[1..] == a[1..] + "\n" + b;
    var rest := SkipLine(a[1..]);
    SkipLineSplit(a[1..], b);
    if |rest| > 0 {
      assert SkipLine(s[1..]) == rest + "\n" + b;
      StripQueryLines(rest, b);
    } else {
      assert SkipLine(s[1..]) == [] + "\n" + b;
      StripQueryLines([], b);
    }
  }

  /** Stripping twice is stripping once. */
  lemma StripQueryIdempotent(s: string)
    ensures StripQuery(StripQuery(s)) == StripQuery(s)
  {
    StripQueryFacts(s);
    StripQueryFacts(StripQuery(s));
  }

  /** The filtering loop of `find_cdn_images`: the carriage-return-free srcs the pattern accepts, in document order. */
  function Candidates(srcs: seq<string>): (links: seq<string>)
    ensures |links| <= |srcs|
  {
    if |srcs| == 0 then []
    else
      var last := RemoveCR(srcs[|srcs| - 1]);
      Candidates(srcs[..|srcs| - 1]) + (if CdnPattern(last) then [last] else [])
  }

  /** Positions in `srcs` of the values `Candidates` keeps. */
  function KeptIndices(srcs: seq<string>): seq<nat> {
    if |srcs| == 0 then []
    else
      var i := |srcs| - 1;
      KeptIndices(srcs[..i]) + (if CdnPattern(RemoveCR(srcs[i])) then [i] else [])
  }

  /**
   * `Candidates` keeps exactly the srcs whose cleaned form matches, each as
   * often as it occurs and in the order of the page: the k-th link is the
   * cleaned src at the k-th kept position, and positions strictly increase.
   */
  lemma {:induction false} CandidatesExact(srcs: seq<string>)
    ensures |KeptIndices(srcs)| == |Candidates(srcs)|
    ensures forall k :: 0 <= k < |KeptIndices(srcs)| ==>
      KeptIndices(srcs)[k] < |srcs| && Candidates(srcs)[k] == RemoveCR(srcs[KeptIndices(srcs)[k]])
    ensures forall k, l :: 0 <= k < l < |KeptIndices(srcs)| ==> KeptIndices(srcs)[k] < KeptIndices(srcs)[l]
    ensures forall i :: 0 <= i < |srcs| ==> (CdnPattern(RemoveCR(srcs[i])) <==> i in KeptIndices(srcs))
  {
    if |srcs| > 0 {
      var n := |srcs| - 1;
      var pre := srcs[..n];
      CandidatesExact(pre);
      assert forall i :: 0 <= i < n ==> pre[i] == srcs[i];
      var idx, pidx := KeptIndices(srcs), KeptIndices(pre);
      var c, pc := Candidates(srcs), Candidates(pre);
      var last := RemoveCR(srcs[n]);
      assert n !in pidx;
      if CdnPattern(last) {
        assert idx == pidx + [n];
        assert c == pc + [last];
      } else {
        assert idx == pidx;
        assert c == pc;
      }
    }
  }

  /** The query-strip comprehension of `find_cdn_images`: the strip applied to every kept link. */
  function StripQueries(links: seq<string>): seq<string> {
    seq(|links|, i requires 0 <= i < |links| => StripQuery(links[i]))
  }

  /** What `find_cdn_images` returns for a page response. */
  function CdnImages(page: PageResponse): (links: seq<string>)
    ensures page.Fetched? ==> |links| <= |page.srcs|
    ensures page.RequestFailed? ==> links == []
  {
    match page
    case RequestFailed => []
    case Fetched(srcs) => StripQueries(Candidates(srcs))
  }

  /** A kept src, once stripped, still starts with the CDN prefix and has no `?` or `\r`. */
  lemma StrippedLinkShape(s: string)
    requires CdnPattern(s) && '\r' !in s
    ensures CDN_PREFIX <= StripQuery(s) && '?' !in StripQuery(s) && '\r' !in StripQuery(s)
  {
    StripQueryFacts(s);
    StripQueryDeletesOnly(s);
    assert '\r' !in multiset(s);
    assert '\r' !in multiset(StripQuery(s));
    assert forall j :: 0 <= j < |CDN_PREFIX| ==> s[j] == CDN_PREFIX[j];
    assert forall j :: 0 <= j < |CDN_PREFIX| ==> CDN_PREFIX[j] != '?';
    assert forall j :: 0 <= j < |CDN_PREFIX| ==> s[j] != '?';
    assert IndexOf(s, '?') >= |CDN_PREFIX|;
    assert CDN_PREFIX <= s[..IndexOf(s, '?')];
  }

  /** Every link returned starts with the CDN prefix and carries no query and no carriage return. */
  lemma CdnImagesShape(page: PageResponse)
    ensures page.Fetched? ==> |CdnImages(page)| <= |page.srcs|
    ensures forall k :: 0 <= k < |CdnImages(page)| ==>
      CDN_PREFIX <= CdnImages(page)[k] && '?' !in CdnImages(page)[k] && '\r' !in CdnImages(page)[k]
  {
    if page.Fetched? {
      var srcs := page.srcs;
      var c := Candidates(srcs);
      var idx := KeptIndices(srcs);
      CandidatesExact(srcs);
      forall k | 0 <= k < |c|
        ensures CDN_PREFIX <= StripQuery(c[k]) && '?' !in StripQuery(c[k]) && '\r' !in StripQuery(c[k])
      {
        RemoveCRFacts(srcs[idx[k]]);
        StrippedLinkShape(c[k]);
      }
      assert forall k :: 0 <= k < |c| ==> CdnImages(page)[k] == StripQuery(c[k]);
    }
  }

  /** The filtering loop of `find_cdn_images`, run over the page's srcs. */
  method FilterCandidates(srcs: seq<string>) returns (kept: seq<string>)
    ensures kept == Candidates(srcs)
  {
    kept := [];
    var i := 0;
    while i < |srcs|
      invariant 0 <= i <= |srcs|
      invariant kept == Candidates(srcs[..i])
    {
      var src := RemoveCR(srcs[i]);
      var ok := MatchesCdnPattern(src);
      ghost var next := srcs[..i + 1];
      assert next[..i] == srcs[..i] && next[i] == srcs[i];
      assert Candidates(next) == Candidates(srcs[..i]) + (if CdnPattern(src) then [src] else []);
      if ok {
        kept := kept + [src];
      }
      i := i + 1;
    }
    assert srcs[..i] == srcs;
  }

  /** The query-strip comprehension of `find_cdn_images`, as a loop. */
  method StripAll(kept: seq<string>) returns (links: seq<string>)
    ensures links == StripQueries(kept)
  {
    links := [];
    var j := 0;
    while j < |kept|
      invariant 0 <= j <= |kept|
      invariant |links| == j
      invariant forall m :: 0 <= m < j ==> links[m] == StripQuery(kept[m])
    {
      links := links + [StripQuery(kept[j])];
      j := j + 1;
    }
  }

  /** `find_cdn_images` as written: filter in one pass, strip queries in a second. */
  method FindCdnImages(page: PageResponse) returns (links: seq<string>)
    ensures links == CdnImages(page)
  {
    if page.RequestFailed? {
      return [];
    }
    var kept := FilterCandidates(page.srcs);
    links := StripAll(kept);
  }
}

=== FILE: strings.dfy ===
/** Character-level helpers shared by the URL builders, the link filter and the watermark file. */
module Strings {

  /** Python's `str.isspace()`, restricted to code points below U+0100. */
  predicate IsSpace(ch: char) {
    ch == ' ' || 9 <= ch as int <= 13 || 28 <= ch as int <= 31 || ch as int == 0x85 || ch as int == 0xA0
  }

  /** Drops leading whitespace. */
  function TrimLeft(s: string): (r: string)
    ensures |r| <= |s| && r == s[|s| - |r|..]
    ensures |r| > 0 ==> !IsSpace(r[0])
    ensures forall i :: 0 <= i < |s| - |r| ==> IsSpace(s[i])
  {
    if |s| > 0 && IsSpace(s[0]) then TrimLeft(s[1..]) else s
  }

  /** Drops trailing whitespace. */
  function TrimRight(s: string): (r: string)
    ensures |r| <= |s| && r == s[..|r|]
    ensures |r| > 0 ==> !IsSpace(r[|r| - 1])
    ensures forall i :: |r| <= i < |s| ==> IsSpace(s[i])
  {
    if |s| > 0 && IsSpace(s[|s| - 1]) then TrimRight(s[..|s| - 1]) else s
  }

  /** Python's `str.strip()` with no argument. */
  function Strip(s: string): string {
    TrimRight(TrimLeft(s))
  }

  /** Text that neither starts nor ends with whitespace is left alone by `Strip`. */
  lemma StripUntouched(s: string)
    requires |s| > 0 && !IsSpace(s[0]) && !IsSpace(s[|s| - 1])
    ensures Strip(s) == s
  {
  }

  /** Index of the first occurrence of `ch` in `s`, or `|s|` when there is none. */
  function IndexOf(s: string, ch: char): (k: nat)
    ensures k <= |s|
    ensures k < |s| ==> s[k] == ch
    ensures forall j :: 0 <= j < k ==> s[j] != ch
  {
    if |s| == 0 || s[0] == ch then 0 else 1 + IndexOf(s[1..], ch)
  }

  /** Python's `str.endswith`. */
  predicate EndsWith(s: string, suffix: string) {
    |suffix| <= |s| && s[|s| - |suffix|..] == suffix
  }

  /** Equal strings built around the same prefix and suffix have the same middle. */
  lemma SameFrame(a: string, x: string, y: string, b: string)
    requires a + x + b == a + y + b
    ensures x == y
  {
    var s := a + x + b;
    assert |x| == |y|;
    assert x == s[|a|..|a| + |x|];
    assert y == (a + y + b)[|a|..|a| + |y|];
  }
}

=== FILE: watermark.dfy ===
/**
 * The "last chapter" watermark kept in `last_chapter.txt`: how it is read and
 * written, how the class updates it, and how the next chapter is chosen from it.
 * Orchestration sees the file as a cell: `None` when it does not exist.
 */
module Watermark {
  import opened Wrappers
  import opened Errors
  import opened Strings
  import opened Decimal

  /** The decoded watermark file: `None` when the file does not exist. */
  type Cell = Option<int>

  function Max(a: int, b: int): int {
    if a >= b then a else b
  }

  /** Text written by `save_last_chapter`: `str(chapter)`. */
  function WatermarkText(chapter: int): string {
    IntToString(chapter)
  }

  /**
   * `get_last_chapter`: a missing file reads as `None`; otherwise the file
   * text is stripped and passed to `int()`, which raises on anything else.
   */
  function GetLastChapter(file: Option<string>): Result<Cell, Error> {
    match file
    case None => Success(None)
    case Some(text) =>
      match ParseInt(Strip(text))
      case None => Failure(NotAnInteger)
      case Some(v) => Success(Some(v))
  }

  /** Reading the file back after a save yields the saved chapter, so the cell view is exact. */
  lemma WatermarkFileRoundTrip(chapter: int)
    ensures GetLastChapter(Some(WatermarkText(chapter))) == Success(Some(chapter))
  {
    var s := WatermarkText(chapter);
    StripUntouched(s);
    IntRoundTrip(chapter);
  }

  /**
   * `save_last_chapter` in the class: writes only when the chapter is above
   * the stored one. With no file, `chapter > None` raises a `TypeError`.
   */
  function SaveLastChapter(stored: Cell, chapter: int): (r: Result<Cell, Error>)
    ensures r.Failure? <==> stored.None?
    ensures r.Failure? ==> r.error == CompareWithNone
    ensures r.Success? ==> r.value == Some(Max(stored.value, chapter))
  {
    match stored
    case None => Failure(CompareWithNone)
    case Some(last) => if chapter > last then Success(Some(chapter)) else Success(stored)
  }

  /**
   * Corrected update: a missing watermark takes the chapter; an existing one
   * becomes the larger of the two. The cell is never left empty and never decreases.
   */
  function AdvanceWatermark(stored: Cell, chapter: int): (r: Cell)
    ensures r.Some? && chapter <= r.value
    ensures stored.Some? ==> stored.value <= r.value
    ensures r.value == chapter || stored == Some(r.value)
  {
    match stored
    case None => Some(chapter)
    case Some(last) => if chapter > last then Some(chapter) else stored
  }

  /** Corrected updates applied in order. */
  function AdvanceAll(stored: Cell, chapters: seq<int>): Cell
    decreases |chapters|
  {
    if |chapters| == 0 then stored else AdvanceAll(AdvanceWatermark(stored, chapters[0]), chapters[1..])
  }

  /**
   * After any sequence of corrected updates, in any order, the watermark is
   * the largest of the prior value and all the chapters.
   */
  lemma {:induction false} AdvanceAllIsMax(stored: Cell, chapters: seq<int>)
    requires stored.Some? || |chapters| > 0
    ensures AdvanceAll(stored, chapters).Some?
    ensures stored.Some? ==> stored.value <= AdvanceAll(stored, chapters).value
    ensures forall i :: 0 <= i < |chapters| ==> chapters[i] <= AdvanceAll(stored, chapters).value
    ensures AdvanceAll(stored, chapters).value in chapters || stored == AdvanceAll(stored, chapters)
    decreases |chapters|
  {
    if |chapters| > 0 {
      var next := AdvanceWatermark(stored, chapters[0]);
      var rest := chapters[1..];
      AdvanceAllIsMax(next, rest);
      assert forall i :: 1 <= i < |chapters| ==> chapters[i] == rest[i - 1];
      var r := AdvanceAll(next, rest);
      assert r == AdvanceAll(stored, chapters);
      if r.value !in rest {
        assert r == next;
      }
    }
  }

  /** The class's updates applied in order; the first raise ends the sequence. */
  function SaveAll(stored: Cell, chapters: seq<int>): Result<Cell, Error>
    decreases |chapters|
  {
    if |chapters| == 0 then Success(stored)
    else
      match SaveLastChapter(stored, chapters[0])
      case Failure(e) => Failure(e)
      case Success(next) => SaveAll(next, chapters[1..])
  }

  /** Once a watermark exists, the class's updates behave exactly like the corrected ones. */
  lemma {:induction false} SaveAllMatchesAdvance(stored: Cell, chapters: seq<int>)
    requires stored.Some?
    ensures SaveAll(stored, chapters) == Success(AdvanceAll(stored, chapters))
    decreases |chapters|
  {
    if |chapters| > 0 {
      SaveAllMatchesAdvance(AdvanceWatermark(stored, chapters[0]), chapters[1..]);
    }
  }

  /** Without a watermark file the class can never create one: the first update raises. */
  lemma SaveAllFromEmptyRaises(chapters: seq<int>)
    requires |chapters| > 0
    ensures SaveAll(None, chapters) == Failure(CompareWithNone)
  {
  }

  /** A late duplicate of an older chapter leaves a newer watermark in place. */
  lemma LateDuplicateKeepsWatermark()
    ensures SaveAll(Some(1129), [1130, 1129]) == Success(Some(1130))
    ensures AdvanceAll(Some(1129), [1130, 1129]) == Some(1130)
  {
  }

  /**
   * Chapter chosen when none is given: `last + 1` when `last` is truthy,
   * else 1. A stored 0 is falsy in Python, so it also gives 1.
   */
  function NextChapter(last: Cell): (c: int)
    ensures last.Some? ==> last.value < c
    ensures c == 1 <==> (last == None || last == Some(0))
    ensures last.Some? && last.value != 0 ==> c == last.value + 1
  {
    match last
    case Some(l) => if l != 0 then l + 1 else 1
    case None => 1
  }
}

=== FILE: wrappers.dfy ===
/** Option and result types used throughout the model. */
module Wrappers {

  /** A value that may be absent: Python's `None` versus a present value. */
  datatype Option<+T> = None | Some(value: T)

  /** Either a value or the exception a Python call would raise instead. */
  datatype Result<+R, +E> = Success(value: R) | Failure(error: E)
}
